=== FILE: README.md ===
# Base paths, entry redirect and resilient fetch of the multilingual article reader

This project models, in Dafny, the logic of the static article reader that is
not rendering. That logic has five parts:

- **Base-path helpers.** `lib/config.js` has `withBase` and `withoutBase`, and
  the normalisation of the deployment base `BP`. `components/Layout.jsx` has
  its own near-duplicate `withBaseSafe`, the `wb` wrapper, the previous/next
  `#` fallbacks, the logo fallback and the language switch. `utils/paths.js`
  has a naive concatenating `withBase` and `ensureAbs`.
- **Entry redirect** (`pages/index.js`). It finds the first row of the
  catalogue with a non-empty id, checking languages in the fixed order
  `en, fr, de, pt, lb`. It redirects to the prefixed `/lang/id/`, or to the
  prefixed `/404/` when no row has an id.
- **Retry loop** (`fetchWithTimeout` in `lib/wp.js`). Any completed response
  is returned at once, whatever its status. A transport failure is retried
  after a linearly growing back-off. The last failure is rethrown.
- **Status handling** of `fetchPost` (throws on a non-2xx status) and
  `fetchAuthor` (returns `null` on a non-2xx status).
- **Post selectors** `postTitle` and `postSlug`.

The base segment `BP` is a parameter `bp` of every helper. `Config.ValidBase`
names the shapes of `bp` under which the helpers never add the prefix twice:
empty, or a leading `/`, no `//` and no trailing `/`. The network is an
oracle: a sequence whose element `k` is what attempt `k` yields, either
`Completed(status, body)` or `TransportError(error)`. The loop also records
its timer events (arm, clear, sleep), so the proofs can talk about the
timers and the back-off.

Modules, one per source file plus two shared ones:

- `JsValues`: `Option`, `Result` and JavaScript string truthiness.
- `Text`: shared string helpers.
- `Config`: `lib/config.js`.
- `Layout`: `components/Layout.jsx`.
- `Paths`: `utils/paths.js`.
- `Entry`: `pages/index.js`.
- `Wp`: `lib/wp.js`.

Behaviours of the code worth knowing, all of which the model keeps:

- `withBase('')` returns `BP`, not `''`. Only `withBaseSafe` keeps `''`.
- `withoutBase` strips the base only from a path that starts with `BP + '/'`.
  A path equal to `BP` is kept. An empty path, an empty base or an absolute
  URL is returned without adding a leading slash.
- `fetchPost` throws on a non-2xx status. It does not return a degraded
  placeholder. `fetchAuthor` returns `null` instead.
- Idempotence of the base helpers holds only for a base of the
  `Config.ValidBase` shape, not for every configured value.

## Model

| member | source | states |
|---|---|---|
| Text.CollapseSlashes | lib/config.js:25 | Replacing every run of 2 or more `/` by one `/` leaves no `//`, keeps all non-slash characters in order, and keeps the first character. |
| Text.CollapseDropsOne | lib/config.js:25 | Removing one slash of any `//` does not change the collapsed result. Together with `Text.CollapseFixpoint` this fixes the result: each run of slashes becomes one `/` in its original place. |
| Text.CollapseExample | lib/config.js:25 | `/a//b` collapses to `/a/b`, not to `/ab`. |
| Text.CollapseFixpoint | lib/config.js:25 | Collapsing leaves a string unchanged exactly when it has no `//`. |
| Text.CollapseIdempotent | lib/config.js:25 | Collapsing twice is the same as collapsing once. |
| Text.CollapseAppend | lib/config.js:25 | A prefix that does not end in `/` is collapsed separately from what follows it. |
| Text.LowerAscii | components/Layout.jsx:164 | Lower-casing keeps the length and lower-cases each ASCII letter. |
| Text.HttpUrlScheme | lib/config.js:8 | `Text.IsHttpUrl` models both `isAbsoluteUrl` and the identical `isAbs` of components/Layout.jsx line 9. A string matches exactly when it starts with `h`, `t`, `t`, `p`, an optional `s`, each in either ASCII case, followed by `://`. Only the ASCII scheme letters fold, as for a regular expression with `/i` and without `u`. |
| Text.HttpUrlLead | components/Layout.jsx:9 | A string that passes the case-insensitive `^https?://` test starts with `h` or `H`, so never with `/`, `#` or `?`. |
| Text.EnsureLeadingSlash | lib/config.js:9 | The result starts with `/` and ends with the input. It is longer by at most one character, and equals the input exactly when the input already started with `/`. |
| Text.EnsureLeadingSlashIdempotent | lib/config.js:9 | Ensuring a leading slash twice is the same as once. |
| Text.EnsureLeadingSlashNoDouble | lib/config.js:9 | Adding the leading slash to a string with no `//` creates no `//`. |
| Text.TrimStart | lib/wp.js:54 | Removes exactly the leading white space and returns a suffix of the input. |
| Text.TrimEnd | lib/wp.js:54 | Removes exactly the trailing white space and returns a prefix of the input. |
| Text.TrimEndStartSlice | lib/wp.js:54 | Trimming the end and then the start leaves a slice of the input with only white space outside it. |
| Text.TrimEndStartEnds | lib/wp.js:54 | Trimming the end and then the start leaves no white space at either end. |
| Text.Trim | lib/wp.js:54 | JavaScript `trim`: the result is a slice of the input with white space only outside it, and it neither starts nor ends with white space. |
| Text.TrimUnchanged | lib/wp.js:54 | A string with no white space at either end is its own trim. |
| Text.NatToDecimal | lib/wp.js:54 | `String(n)` of a natural number is non-empty, all decimal digits, and has no leading zero. |
| Text.NatToDecimalRoundTrip | lib/wp.js:54 | Reading back the decimal text of `n` gives `n`. |
| Text.IntToDecimal | lib/wp.js:54 | `String(n)` of an integer has no white space at either end. For `n >= 0` it is the canonical decimal text of `n` (`Text.NatToDecimal`: digits only, no leading zero, reads back as `n`). For `n < 0` it is `-` followed by the canonical text of `-n`. |
| Config.StripTrailingSlashes | lib/config.js:5 | Removing `/\/+$/` leaves a prefix of the input that does not end in `/`. Everything removed is `/`. |
| Config.NormalizeBase | lib/config.js:5 | `BP` never ends in `/`. It is a prefix of the configured value (`''` when unset), and only slashes were dropped. |
| Config.NormalizeBaseAllSlashes | lib/config.js:5 | A configured value made only of slashes, `/` included, becomes `''`. |
| Config.NormalizeBaseValid | lib/config.js:5 | A configured value with a leading `/` and no `//` normalises to a valid base. |
| Config.WithBase | lib/config.js:13-26 | `''` gives `BP`. Absolute URLs and `#`/`?` paths come back unchanged. With an empty `BP` the result is the slash-ensured path. A slash-ensured path that already has the base is returned as is. Otherwise the result is `BP` followed by the slash-ensured path, with every run of `/` collapsed to one. It has no `//` and keeps the non-slash characters of `BP + p`. With a valid base every relative path ends up carrying the base. |
| Config.PrefixedCollapse | lib/config.js:25 | For a valid non-empty base, collapsing `BP + path` is `BP` followed by the collapsed path. |
| Config.PrefixedStartsWithBase | lib/config.js:22-25 | For a valid non-empty base, the prefixing branch yields `BP + '/' + …`. |
| Config.WithBaseIdempotent | lib/config.js:12-26 | Never a double prefix: with a valid base, `withBase(withBase(p)) == withBase(p)` for every `p`. |
| Config.WithoutBase | lib/config.js:30-34 | An empty path, an empty base or an absolute URL comes back unchanged. A slash-ensured path starting with `BP + '/'` loses exactly `BP`, and the result starts with `/`. Any other path only gets its leading slash. |
| Config.WithBasePrefixesOnce | lib/config.js:22-25 | With a valid non-empty base (`Config.ValidBase`), a relative path with no `#`/`?` lead, no `//` and no base yet comes back as exactly `BP` followed by the slash-ensured path: one prefix, nothing else changed. |
| Config.WithoutBaseRoundTrip | lib/config.js:13-34 | With a valid base (`Config.ValidBase`), take a non-empty relative path with no `#`/`?` lead and no `//`. With an empty base, or when the path does not already have the base, `withoutBase(withBase(p))` is the slash-ensured `p`. |
| Config.WithBaseExamples | lib/config.js:13-33 | With base `/x`: `/a` becomes `/x/a`, `/x/a` stays `/x/a`, `''` becomes `/x`, and `withoutBase('/x/a')` is `/a`. |
| Config.WithBaseCollapseExample | lib/config.js:22-25 | With base `/x`, the path `a//b` becomes `/x/a/b`. |
| Config.WithBaseInvalidBaseStacks | lib/config.js:5-26 | A base without a leading `/`, such as `x`, is not valid, and then the base stacks. `withBase('a')` is `x/a`, and applying `withBase` again gives `x/x/a`. |
| Config.WithBaseAbsoluteExample | lib/config.js:8-15 | The absolute-URL test ignores case: `HTTPS://y/a` is returned unchanged. |
| Layout.WithBaseSafe | components/Layout.jsx:9-17 | `''` stays `''` and absolute URLs are unchanged. With an empty base only a leading `/` is added. A raw path equal to the base or starting with `BP + '/'` is kept. Otherwise the result is `BP` followed by the slash-ensured path, with every run of `/` collapsed to one. It has no `//`, keeps the non-slash characters and, with a valid base, starts with `BP + '/'`. `#` and `?` paths are prefixed too. |
| Layout.WithBaseSafeIdempotent | components/Layout.jsx:8-17 | The "anti double-préfixe" promise: with a valid base, `withBaseSafe` is idempotent. |
| Layout.WithBaseSafePrefixesOnce | components/Layout.jsx:14-16 | With a valid non-empty base (`Config.ValidBase`), a non-empty relative path with no `//` and no base yet, anchors and queries included, comes back as exactly `BP` followed by the slash-ensured path. |
| Layout.WithBaseSafeCollapseExample | components/Layout.jsx:14-16 | With base `/x`, the path `a//b` becomes `/x/a/b`. |
| Layout.WithBaseSafeRawPrefixTest | components/Layout.jsx:14-16 | The prefix test runs on the raw path, so `x/a` with base `/x` becomes `/x/x/a`. |
| Layout.Wb | components/Layout.jsx:50 | A falsy value (absent or `''`) is returned as it is. A truthy one goes through `withBaseSafe` and stays truthy. |
| Layout.NavHref | components/Layout.jsx:206 | The previous/next `href` (same code at line 228) is `#` when the link is absent or empty, and the prefixed link otherwise. It is never empty. With a valid base it is `#` exactly when the link is absent or empty. |
| Layout.WithBaseSafeNotHash | components/Layout.jsx:9-17 | With a valid base, a non-empty path never becomes the bare `#`. |
| Layout.LogoSrc | components/Layout.jsx:53 | Only an absent logo falls back to `/assets/logo.svg`. An empty logo stays empty. A present one is prefixed. |
| Layout.DefaultLogoPrefixedOnce | components/Layout.jsx:53 | Take a valid non-empty base that the default logo path does not already carry. For an absent logo the source is exactly that base followed by `/assets/logo.svg`: the fallback gets the prefix once. |
| Layout.OptionMap | components/Layout.jsx:165 | Every key of the map built from the options comes from some option. |
| Layout.OptionMapLastWins | components/Layout.jsx:165-166 | The map holds, for a code, the id of the last option with that code. |
| Layout.OnLanguageChange | components/Layout.jsx:163-168 | The selected code is lower-cased. Navigation happens only when the last option with that code has a non-empty id, and it goes to the prefixed `/code/id/`. A code with no option gives no navigation. |
| Layout.LanguageChangeLaterEntryWins | components/Layout.jsx:164-167 | With options `fr→1` then `fr→2`, selecting `FR` navigates to `/fr/2/`. |
| Paths.NaiveWithBase | utils/paths.js:4-5 | The result is exactly the prefix followed by `p`, of length `|prefix| + |p|`. An unset or empty prefix leaves `p` unchanged; any defined value is used, because of `??`. |
| Paths.NaiveWithBaseNotIdempotent | utils/paths.js:4-5 | With a non-empty prefix, applying it twice adds the prefix twice, so the result differs from applying it once. |
| Paths.EnsureAbs | utils/paths.js:8 | The result always starts with `/`. It is unchanged for a path that starts with `/`, and otherwise exactly one `/` is prepended. |
| Paths.EnsureAbsIdempotent | utils/paths.js:8 | `ensureAbs` is idempotent. |
| Entry.ResolveEntry | pages/index.js:10-13 | No id is found exactly when no row has a non-empty `en/fr/de/pt/lb` column; `lang` then stays `en`. Otherwise `(lang, id)` is the first such column, in priority order, of the first such row, and every earlier row has none. |
| Entry.FirstPickUnique | pages/index.js:11-12 | At most one row and one `(lang, id)` fit the first-match description, so the scan's contract determines its result. |
| Entry.FirstPickOnlyReadsLangs | pages/index.js:6-12 | Only the five language columns are consulted. Catalogues that agree on them have the same first pick, whatever other keys they have. |
| Entry.IndexTarget | pages/index.js:8-15 | The redirect target is `withBase('/lang/id/')` for the first pick, and `withBase('/404/')` when there is none, the empty catalogue included. |
| Entry.EmptyIdSkipped | pages/index.js:11-12 | A row whose only language column is `''` is skipped, and a column of an unsupported language is ignored. |
| Wp.PolicyShape | lib/wp.js:8-31 | With `retries < 0` nothing is attempted. Otherwise between 1 and `retries + 1` attempts are made, and every attempt before the last failed in transport. A completed last attempt is returned whatever its status. A failed last attempt is attempt `retries`, and its error is rethrown. The events follow the arm/clear/sleep schedule. |
| Wp.FetchWithTimeout | lib/wp.js:8-31 | The attempt loop computes exactly the policy's result, attempt count and event trace. |
| Wp.PolicyStopStep | lib/wp.js:12-27 | A completed attempt, or a failure on attempt `retries`, ends the run with that attempt's timer armed and then cleared. |
| Wp.PolicyRetryStep | lib/wp.js:25-28 | A failure before attempt `retries` adds arm, clear and a sleep of `500*(k+1)` ms, and moves on to the next attempt. |
| Wp.PolicyReturnsFirstCompleted | lib/wp.js:13-24 | If attempt `j` is the first to complete, exactly `j + 1` attempts are made and its response is returned, with no retry. |
| Wp.PolicyAllFail | lib/wp.js:25-28 | If every attempt fails, exactly `retries + 1` attempts are made, the last error is rethrown, and the total back-off is `500*retries*(retries+1)/2` ms. |
| Wp.DefaultRetriesAllFail | lib/wp.js:6-28 | With the default of two retries, a request whose every attempt fails is tried three times. It waits 500 ms and then 1000 ms, and the third error is rethrown. |
| Wp.ScheduleTimersCleared | lib/wp.js:11-26 | In the schedule, every armed timer is cleared by the next event. |
| Wp.PolicyTimersCleared | lib/wp.js:11-26 | Each attempt's timer is cleared on the success path and on the failure path. |
| Wp.ScheduleSleeps | lib/wp.js:28 | The schedule sleeps once per attempt except the last: `500*(k+1)` ms after attempt `k`. |
| Wp.PolicyDelaysIncrease | lib/wp.js:28 | The back-off delays are `500, 1000, …`, strictly increasing, one fewer than the attempts made. |
| Wp.ScheduleTotal | lib/wp.js:28 | The sleeps of attempts `k` to `n-1` add up to `250*((n-1)*n - k*(k+1))` ms. |
| Wp.FetchPost | lib/wp.js:33-37 | The first completed response gives its body when the status is 2xx, and throws an HTTP-status error otherwise. Exhausted retries rethrow the transport error. A negative retry count throws because there is no response. |
| Wp.FetchAuthor | lib/wp.js:40-44 | The first completed response gives its body when the status is 2xx, and `null` otherwise. Transport errors still propagate. |
| Wp.PostTitle | lib/wp.js:46-51 | `Sans titre` for a missing post or title. Otherwise the rendered title if non-empty, else the raw title if non-empty, else `Sans titre`. Never empty. |
| Wp.IdText | lib/wp.js:54 | The id text (the id, or `''` when it is falsy, passed through `String`) is empty exactly for a missing id, the number 0 or the empty string. A string id is kept. A positive numeric id gives its canonical decimal text, and a negative one gives `-` followed by the text of its absolute value. |
| Wp.PostSlug | lib/wp.js:53-55 | The slug when non-empty. Otherwise the trimmed text of the id: a slice of it with no white space at either end, and `''` for a missing post or a falsy id. A positive numeric id gives its canonical decimal text, and a negative one gives `-` followed by the text of its absolute value. |

## Left out

- The real `fetch`, `AbortController` and wall-clock timers are not modelled. The per-attempt timeout is not a parameter: an aborted attempt is a `TransportError` in the oracle. Request headers and the `cache` option are not modelled.
- The oracle must hold an outcome for every allowed attempt (`retries < |oracle|`). The loop never reads beyond that.
- Parsing `NEXT_PUBLIC_WP_TIMEOUT_MS` and `NEXT_PUBLIC_WP_RETRIES` with `Number` (which can give `NaN` or a fraction) is left out. The retry count is an integer parameter, and its default of 2 is `Wp.DefaultRetries`. The 25000 ms timeout default has no counterpart, because time is not modelled.
- JSON parsing of response bodies (`r.json()`, which can throw) is left out. A response carries its body already parsed, and a post is modelled by the fields the selectors read.
- Error messages are modelled as `FetchError` values, not as the message strings.
- The API base URL and the request URLs are left out. The oracle stands for the responses to them.
- Non-string JavaScript inputs are left out. This covers `null`, `undefined` or numbers passed to the path helpers (for example, `ensureAbs(undefined)` is `/undefined`), numeric ids in catalogue rows, and non-string slugs and titles. Paths, ids and option values are strings, and `''` is the only falsy string.
- Text.NatToDecimal: models `String(n)` for an exact, unbounded natural number. JavaScript numbers are doubles: `String(n)` switches to exponent notation (`1e+21`) from 10^21, and integers above 2^53 are not exact. The only such numbers here are WordPress post ids, which are database row numbers far below 2^53.
- Text.IntToDecimal: has the same limit as `Text.NatToDecimal` for |n| of 10^21 and above, for the same reason.
- Wp.PostSlug: a numeric id is an exact integer, so the double-precision limits of `Text.NatToDecimal` apply to the id text as well.
- Wp.IdText: a numeric id is an exact integer. JavaScript `String(n)` uses exponent notation from 10^21, and integers above 2^53 are not exact. WordPress post ids are database row numbers far below both.
- Text.LowerAscii: folds only ASCII letters, where JavaScript `toLowerCase` folds all of Unicode. Language codes are ASCII.
- Reading `BP` from `NEXT_PUBLIC_BASE_PATH` is left out: `Config.NormalizeBase` takes the configured value as a parameter. `next.config.js` and `lib/config-loader.js` are not part of this model. The loader's shape checks are reflected only in the catalogue being a sequence of rows.
- `pages/[lang]/[slug].js` is not part of this model. That covers its row lookup by id, per-row language fallback, previous/next and position computation, author initials and placeholder content.
- React rendering, effects, swipe and keyboard navigation, the modal, the colour variables, and the `links?.x || '#'` fallbacks of the header and footer buttons are left out. Those fallbacks are plain `||` defaults with no base handling. `components/Modal.jsx` and `components/TabsInit.jsx` are not part of this model.
- The page component of `pages/index.js` (meta refresh and script redirect) is left out. Only the computed `target` is modelled.

=== FILE: config.dfy ===
/** The base-path helpers of lib/config.js. The deployment base segment `BP`
    is an explicit parameter `bp` instead of a module-level constant read from
    the environment. */
module Config {
  import opened JsValues
  import opened Text

  /** Every trailing `/` removed (the replacement of `/\/+$/` by nothing). */
  function StripTrailingSlashes(s: string): (r: string)
    ensures r <= s
    ensures r == [] || r[|r| - 1] != '/'
    ensures forall i :: |r| <= i < |s| ==> s[i] == '/'
    decreases |s|
  {
    if s != [] && s[|s| - 1] == '/' then StripTrailingSlashes(s[..|s| - 1]) else s
  }

  /** `BP`: the configured base path, or `''` when unset or empty, without
      trailing slashes. */
  function NormalizeBase(env: Option<string>): (bp: string)
    ensures bp == [] || bp[|bp| - 1] != '/'
    ensures bp <= env.GetOr("")
    ensures forall i :: |bp| <= i < |env.GetOr("")| ==> env.GetOr("")[i] == '/'
  {
    StripTrailingSlashes(OrElse(env, ""))
  }

  /** A configured base made only of slashes, `/` included, becomes `''`. */
  lemma NormalizeBaseAllSlashes(s: string)
    requires forall i :: 0 <= i < |s| ==> s[i] == '/'
    ensures NormalizeBase(Some(s)) == ""
  {
  }

  /** The base shapes under which the helpers never double the prefix: empty,
      or a leading `/`, no `//` and no trailing `/`. */
  predicate ValidBase(bp: string) {
    bp == [] || (bp[0] == '/' && NoDoubleSlash(bp) && bp[|bp| - 1] != '/')
  }

  /** A configured value that starts with `/` and has no `//` normalises to a
      valid base. */
  lemma NormalizeBaseValid(s: string)
    requires StartsWithChar(s, '/') && NoDoubleSlash(s)
    ensures ValidBase(NormalizeBase(Some(s)))
  {
    var bp := NormalizeBase(Some(s));
    assert bp == s[..|bp|];
    forall i | 0 <= i < |bp| - 1
      ensures !(bp[i] == '/' && bp[i + 1] == '/')
    {
      assert bp[i] == s[i] && bp[i + 1] == s[i + 1];
    }
  }

  /** `p` already carries the base: it is `bp` or starts with `bp + '/'`. */
  predicate HasBase(bp: string, path: string) {
    path == bp || bp + "/" <= path
  }

  /** `p` starts with `#` or `?` (an anchor or a query). */
  predicate IsAnchorOrQuery(p: string) {
    StartsWithChar(p, '#') || StartsWithChar(p, '?')
  }

  /** `withBase`: adds the base once. The empty path maps to the base itself;
      absolute URLs, anchors and queries pass through; without a base only a
      leading `/` is ensured; a path that already has the base is kept as is;
      otherwise the result is the base followed by the path with every run
      of slashes collapsed. */
  function WithBase(bp: string, p: string): (r: string)
    ensures p == "" ==> r == bp
    ensures p != "" && (IsHttpUrl(p) || IsAnchorOrQuery(p)) ==> r == p
    ensures p != "" && !IsHttpUrl(p) && !IsAnchorOrQuery(p) && bp == "" ==> r == EnsureLeadingSlash(p)
    ensures p != "" && !IsHttpUrl(p) && !IsAnchorOrQuery(p) && HasBase(bp, EnsureLeadingSlash(p))
            ==> r == EnsureLeadingSlash(p)
    ensures p != "" && !IsHttpUrl(p) && !IsAnchorOrQuery(p) && bp != "" && !HasBase(bp, EnsureLeadingSlash(p))
            ==> r == CollapseSlashes(bp + EnsureLeadingSlash(p))
                && NoDoubleSlash(r) && NonSlash(r) == NonSlash(bp + p)
    ensures p != "" && !IsHttpUrl(p) && !IsAnchorOrQuery(p) && ValidBase(bp) && bp != ""
            ==> HasBase(bp, r)
  {
    if p == "" then bp
    else if IsHttpUrl(p) then p
    else if IsAnchorOrQuery(p) then p
    else
      var path := EnsureLeadingSlash(p);
      if bp == "" then path
      else if HasBase(bp, path) then path
      else
        assert NonSlash(bp + path) == NonSlash(bp + p) by {
          NonSlashAppend(bp, path);
          NonSlashAppend(bp, p);
        }
        PrefixedStartsWithBase(bp, path);
        CollapseSlashes(bp + path)
  }

  lemma {:induction false} NonSlashAppend(a: string, b: string)
    ensures NonSlash(a + b) == NonSlash(a) + NonSlash(b)
    ensures NonSlash("/" + b) == NonSlash(b)
    decreases |a|
  {
    if a == [] {
      assert a + b == b;
    } else {
      assert (a + b)[1..] == a[1..] + b;
      NonSlashAppend(a[1..], b);
    }
    assert ("/" + b)[1..] == b;
  }

  /** A valid, non-empty base followed by a slash-led path collapses to the
      base followed by the collapsed path. */
  lemma PrefixedCollapse(bp: string, path: string)
    requires ValidBase(bp) && bp != ""
    ensures CollapseSlashes(bp + path) == bp + CollapseSlashes(path)
  {
    CollapseAppend(bp, path);
    CollapseFixpoint(bp);
  }

  /** The prefixing branch of `WithBase` yields `bp + '/' + …`. */
  lemma PrefixedStartsWithBase(bp: string, path: string)
    requires StartsWithChar(path, '/')
    ensures ValidBase(bp) && bp != "" ==> bp + "/" <= CollapseSlashes(bp + path)
  {
    if ValidBase(bp) && bp != "" {
      PrefixedCollapse(bp, path);
    }
  }

  /** Never a double prefix: with a valid base, `WithBase` is idempotent. */
  lemma WithBaseIdempotent(bp: string, p: string)
    requires ValidBase(bp)
    ensures WithBase(bp, WithBase(bp, p)) == WithBase(bp, p)
  {
    var r := WithBase(bp, p);
    if p == "" {
      if bp != "" {
        assert !IsHttpUrl(bp) by {
          if IsHttpUrl(bp) { HttpUrlLead(bp); }
        }
      }
    } else if IsHttpUrl(p) || IsAnchorOrQuery(p) {
    } else {
      assert StartsWithChar(r, '/') by {
        if bp != "" {
          assert HasBase(bp, r);
        }
      }
      assert !IsHttpUrl(r) by {
        if IsHttpUrl(r) { HttpUrlLead(r); }
      }
    }
  }

  /** `withoutBase`: removes the base from a path that starts with `bp + '/'`,
      leaving the slash; other paths get a leading `/`; the empty path, an
      empty base and absolute URLs are returned unchanged. */
  function WithoutBase(bp: string, p: string): (r: string)
    ensures p == "" || bp == "" || IsHttpUrl(p) ==> r == p
    ensures p != "" && bp != "" && !IsHttpUrl(p) && bp + "/" <= EnsureLeadingSlash(p)
            ==> StartsWithChar(r, '/') && bp + r == EnsureLeadingSlash(p)
    ensures p != "" && bp != "" && !IsHttpUrl(p) && !(bp + "/" <= EnsureLeadingSlash(p))
            ==> r == EnsureLeadingSlash(p)
  {
    if p == "" || bp == "" || IsHttpUrl(p) then p
    else
      var path := EnsureLeadingSlash(p);
      if bp + "/" <= path then
        assert path == bp + path[|bp|..];
        path[|bp|..]
      else path
  }

  /** A relative path with no anchor or query lead, no `//` and no base yet
      gets the base exactly once and is otherwise unchanged. */
  lemma WithBasePrefixesOnce(bp: string, p: string)
    requires ValidBase(bp) && bp != ""
    requires p != "" && !IsHttpUrl(p) && !IsAnchorOrQuery(p)
    requires NoDoubleSlash(p)
    requires !HasBase(bp, EnsureLeadingSlash(p))
    ensures WithBase(bp, p) == bp + EnsureLeadingSlash(p)
  {
    var path := EnsureLeadingSlash(p);
    PrefixedCollapse(bp, path);
    EnsureLeadingSlashNoDouble(p);
    CollapseFixpoint(path);
  }

  /** Removing the base undoes adding it: for a non-empty relative path with
      no anchor or query lead and no `//`, the round trip gives back the
      slash-ensured path, either with no base at all or when the path did not
      already carry the base. */
  lemma WithoutBaseRoundTrip(bp: string, p: string)
    requires ValidBase(bp)
    requires p != "" && !IsHttpUrl(p) && !IsAnchorOrQuery(p)
    requires NoDoubleSlash(p)
    requires bp == "" || !HasBase(bp, EnsureLeadingSlash(p))
    ensures WithoutBase(bp, WithBase(bp, p)) == EnsureLeadingSlash(p)
  {
    if bp != "" {
      var path := EnsureLeadingSlash(p);
      var r := WithBase(bp, p);
      WithBasePrefixesOnce(bp, p);
      assert !IsHttpUrl(r) by {
        if IsHttpUrl(r) { HttpUrlLead(r); }
      }
      assert EnsureLeadingSlash(r) == r;
      assert bp + "/" <= r;
      assert r[|bp|..] == path;
    }
  }

  /** Examples of the base-path contract with base `/x`: a plain path gets
      the prefix once, an already prefixed path and the base itself are kept,
      and the empty path maps to the base rather than to `''`. */
  lemma WithBaseExamples()
    ensures WithBase("/x", "/a") == "/x/a"
    ensures WithBase("/x", "/x/a") == "/x/a"
    ensures WithBase("/x", "") == "/x"
    ensures WithoutBase("/x", "/x/a") == "/a"
  {
    assert !IsHttpUrl("/a") by { if IsHttpUrl("/a") { HttpUrlLead("/a"); } }
    assert !IsHttpUrl("/x/a") by { if IsHttpUrl("/x/a") { HttpUrlLead("/x/a"); } }
    assert "/a"[1] == 'a' && !("/x/" <= "/a");
    assert NoDoubleSlash("/a");
    assert EnsureLeadingSlash("/a") == "/a";
    WithBasePrefixesOnce("/x", "/a");
    assert "/x" + "/a" == "/x/a";
    assert "/x/" <= "/x/a";
    assert "/x/a"[2..] == "/a";
  }

  /** A run of slashes inside the path is collapsed to one `/` in place. */
  lemma WithBaseCollapseExample()
    ensures WithBase("/x", "a//b") == "/x/a/b"
  {
    var path := "/a//b";
    assert !IsHttpUrl("a//b") by { if IsHttpUrl("a//b") { HttpUrlLead("a//b"); } }
    assert !IsAnchorOrQuery("a//b");
    assert EnsureLeadingSlash("a//b") == path;
    assert !HasBase("/x", path) by { assert path[1] == 'a'; }
    assert ValidBase("/x");
    assert WithBase("/x", "a//b") == CollapseSlashes("/x" + path);
    PrefixedCollapse("/x", path);
    CollapseExample();
    assert "/x" + "/a/b" == "/x/a/b";
  }

  /** Without a leading `/` the base is not valid, and adding it twice
      stacks it: the "already prefixed" test runs on the slash-ensured path
      `/x/a`, which never starts with `x/`. */
  lemma WithBaseInvalidBaseStacks()
    ensures WithBase("x", "a") == "x/a"
    ensures WithBase("x", WithBase("x", "a")) == "x/x/a"
  {
    assert !IsHttpUrl("a") && !IsHttpUrl("x/a") by {
      if IsHttpUrl("a") { HttpUrlLead("a"); }
      if IsHttpUrl("x/a") { HttpUrlLead("x/a"); }
    }
    assert EnsureLeadingSlash("a") == "/a" && EnsureLeadingSlash("x/a") == "/x/a";
    assert !HasBase("x", "/a") && !HasBase("x", "/x/a");
    var s := "x/a";
    assert "x" + "/a" == s && s[1..] == "/a" && s[2..] == "a";
    assert CollapseSlashes(s[1..]) == "/a";
    assert CollapseSlashes(s) == s;
    var t := "x/x/a";
    assert "x" + "/x/a" == t && t[1..] == "/x/a" && t[2..] == s;
    assert CollapseSlashes(t[1..]) == "/x/a";
    assert CollapseSlashes(t) == t;
  }

  /** An absolute URL keeps its scheme whatever its case. */
  lemma WithBaseAbsoluteExample()
    ensures WithBase("/x", "HTTPS://y/a") == "HTTPS://y/a"
  {
    assert LowerAscii("HTTPS://y/a"[..8]) == "https://";
  }
}

=== FILE: entry.dfy ===
/** The entry-point redirect of pages/index.js: scan the catalogue rows in
    order, and the languages of each row in a fixed priority, for the first
    non-empty content id, then build the redirect target through
    `Config.WithBase`. */
module Entry {
  import opened JsValues
  import Config

  /** A catalogue row: language code to content id. Keys other than the
      supported languages may be present; they are never read. */
  type Row = map<string, string>

  /** The supported languages in their fixed priority order. */
  const Langs: seq<string> := ["en", "fr", "de", "pt", "lb"]

  /** Row column `lc` is truthy: present and not the empty string. */
  predicate HasLang(row: Row, lc: string) {
    lc in row && row[lc] != ""
  }

  /** Some supported language of the row holds a truthy id. */
  predicate RowHasAny(row: Row) {
    exists k :: 0 <= k < |Langs| && HasLang(row, Langs[k])
  }

  /** The language and id chosen by the scan. */
  datatype Pick = Pick(lang: string, id: string)

  /** `pick` is the first truthy supported column of the row, in priority
      order. */
  predicate FirstInRow(row: Row, pick: Pick) {
    exists k :: 0 <= k < |Langs| && Langs[k] == pick.lang
      && HasLang(row, pick.lang) && pick.id == row[pick.lang]
      && forall m :: 0 <= m < k ==> !HasLang(row, Langs[m])
  }

  /** Row `i` is the first row with a truthy supported column and `pick` is
      its first such column. */
  predicate IsFirstPick(posts: seq<Row>, i: int, pick: Pick) {
    && 0 <= i < |posts|
    && (forall j :: 0 <= j < i ==> !RowHasAny(posts[j]))
    && FirstInRow(posts[i], pick)
  }

  /** No row has a truthy supported column (the empty catalogue included). */
  predicate NoPick(posts: seq<Row>) {
    forall i :: 0 <= i < |posts| ==> !RowHasAny(posts[i])
  }

  /** The scan of `getStaticProps`, with its labelled `break outer`. `lang`
      keeps its initial `en` and `id` stays absent when nothing is found. */
  method ResolveEntry(posts: seq<Row>) returns (lang: string, id: Option<string>)
    ensures id.None? <==> NoPick(posts)
    ensures id.None? ==> lang == "en"
    ensures id.Some? ==> exists i :: IsFirstPick(posts, i, Pick(lang, id.value))
  {
    lang := "en";
    id := None;
    var i := 0;
    label outer:
    while i < |posts|
      invariant 0 <= i <= |posts|
      invariant lang == "en" && id.None?
      invariant forall j :: 0 <= j < i ==> !RowHasAny(posts[j])
    {
      var row := posts[i];
      var k := 0;
      while k < |Langs|
        invariant 0 <= k <= |Langs|
        invariant lang == "en" && id.None?
        invariant forall m :: 0 <= m < k ==> !HasLang(row, Langs[m])
      {
        var lc := Langs[k];
        if lc in row && row[lc] != "" {
          lang := lc;
          id := Some(row[lc]);
          assert FirstInRow(row, Pick(lang, id.value));
          assert IsFirstPick(posts, i, Pick(lang, id.value));
          break outer;
        }
        k := k + 1;
      }
      i := i + 1;
    }
  }

  /** At most one row and one pick satisfy the first-match description, so
      the contract of `ResolveEntry` fixes its result. */
  lemma FirstPickUnique(posts: seq<Row>, i: int, a: Pick, j: int, b: Pick)
    requires IsFirstPick(posts, i, a) && IsFirstPick(posts, j, b)
    ensures i == j && a == b
  {
    if i == j {
      var ka :| 0 <= ka < |Langs| && Langs[ka] == a.lang && HasLang(posts[i], a.lang)
        && a.id == posts[i][a.lang] && forall m :: 0 <= m < ka ==> !HasLang(posts[i], Langs[m]);
      var kb :| 0 <= kb < |Langs| && Langs[kb] == b.lang && HasLang(posts[i], b.lang)
        && b.id == posts[i][b.lang] && forall m :: 0 <= m < kb ==> !HasLang(posts[i], Langs[m]);
      assert ka == kb;
    }
  }

  /** Two catalogues agree on every supported column of every row. */
  predicate SameLangColumns(posts: seq<Row>, other: seq<Row>) {
    && |posts| == |other|
    && forall i, k :: 0 <= i < |posts| && 0 <= k < |Langs| ==>
         HasLang(posts[i], Langs[k]) == HasLang(other[i], Langs[k])
         && (HasLang(posts[i], Langs[k]) ==> posts[i][Langs[k]] == other[i][Langs[k]])
  }

  /** Only the supported columns are consulted: catalogues that agree on
      them have the same first pick. */
  lemma FirstPickOnlyReadsLangs(posts: seq<Row>, other: seq<Row>, i: int, pick: Pick)
    requires SameLangColumns(posts, other)
    requires IsFirstPick(posts, i, pick)
    ensures IsFirstPick(other, i, pick)
  {
    forall j | 0 <= j < i
      ensures !RowHasAny(other[j])
    {
      assert !RowHasAny(posts[j]);
    }
    var k :| 0 <= k < |Langs| && Langs[k] == pick.lang && HasLang(posts[i], pick.lang)
      && pick.id == posts[i][pick.lang] && forall m :: 0 <= m < k ==> !HasLang(posts[i], Langs[m]);
    assert forall m :: 0 <= m < k ==> !HasLang(other[i], Langs[m]);
    assert HasLang(other[i], Langs[k]);
  }

  /** `getStaticProps`: the redirect target is the prefixed `/lang/id/` of the
      first pick, or the prefixed `/404/` when the catalogue has none. */
  method IndexTarget(bp: string, posts: seq<Row>) returns (target: string)
    ensures NoPick(posts) ==> target == Config.WithBase(bp, "/404/")
    ensures forall i, pick :: IsFirstPick(posts, i, pick) ==>
              target == Config.WithBase(bp, "/" + pick.lang + "/" + pick.id + "/")
  {
    var lang, id := ResolveEntry(posts);
    if id.Some? {
      target := Config.WithBase(bp, "/" + lang + "/" + id.value + "/");
      forall i, pick | IsFirstPick(posts, i, pick)
        ensures pick == Pick(lang, id.value)
      {
        var i0 :| IsFirstPick(posts, i0, Pick(lang, id.value));
        FirstPickUnique(posts, i, pick, i0, Pick(lang, id.value));
      }
    } else {
      target := Config.WithBase(bp, "/404/");
    }
  }

  /** A row whose only supported columns are empty strings is skipped, and
      columns of other languages are ignored. */
  lemma EmptyIdSkipped()
    ensures IsFirstPick([map["en" := "", "es" := "7"], map["fr" := "21"]], 1, Pick("fr", "21"))
  {
    var posts := [map["en" := "", "es" := "7"], map["fr" := "21"]];
    assert !RowHasAny(posts[0]) by {
      forall k | 0 <= k < |Langs|
        ensures !HasLang(posts[0], Langs[k])
      {
      }
    }
    assert Langs[1] == "fr";
    assert !HasLang(posts[1], Langs[0]);
  }
}

=== FILE: jsvalues.dfy ===
/** JavaScript values as the core sees them: an optional value (null or
    undefined versus present) and the truthiness of a string. */
module JsValues {

  /** `None` stands for `null`/`undefined`, `Some(v)` for a present value. */
  datatype Option<+T> = None | Some(value: T) {

    /** The present value, or `default` when absent (JavaScript `??`). */
    function GetOr(default: T): T {
      match this
      case Some(v) => v
      case None => default
    }
  }

  /** A returned value or a thrown error. */
  datatype Result<+T, +E> = Success(value: T) | Failure(error: E)

  /** An optional string is truthy when it is present and not empty: in
      JavaScript a string is falsy exactly when it is empty. */
  predicate TruthyOpt(o: Option<string>) {
    o.Some? && o.value != ""
  }

  /** JavaScript `o || fallback` for an optional string. */
  function OrElse(o: Option<string>, fallback: string): (r: string)
    ensures TruthyOpt(o) ==> r == o.value
    ensures !TruthyOpt(o) ==> r == fallback
  {
    if TruthyOpt(o) then o.value else fallback
  }
}

=== FILE: layout.dfy ===
/** The non-rendering helpers of components/Layout.jsx: its own base-path
    helper `withBaseSafe`, the `wb` wrapper, the `#` fallback of the
    previous/next links, the logo fallback and the language switch. */
module Layout {
  import opened JsValues
  import opened Text
  import Config

  /** `withBaseSafe`: like `Config.WithBase` except that the empty path stays
      empty, anchors and queries are prefixed too, and the "already prefixed"
      test looks at the raw path before a leading `/` is added. */
  function WithBaseSafe(bp: string, path: string): (r: string)
    ensures path == "" ==> r == ""
    ensures IsHttpUrl(path) ==> r == path
    ensures path != "" && !IsHttpUrl(path) && bp == "" ==> r == EnsureLeadingSlash(path)
    ensures path != "" && !IsHttpUrl(path) && Config.HasBase(bp, path) ==> r == path
    ensures path != "" && !IsHttpUrl(path) && bp != "" && !Config.HasBase(bp, path)
            ==> r == CollapseSlashes(bp + EnsureLeadingSlash(path))
                && NoDoubleSlash(r) && NonSlash(r) == NonSlash(bp + path)
    ensures path != "" && !IsHttpUrl(path) && Config.ValidBase(bp) && bp != "" && !Config.HasBase(bp, path)
            ==> bp + "/" <= r
    ensures path != "" ==> r != ""
  {
    if path == "" then path
    else if IsHttpUrl(path) then path
    else if bp == "" then EnsureLeadingSlash(path)
    else if Config.HasBase(bp, path) then path
    else
      var p := EnsureLeadingSlash(path);
      assert NonSlash(bp + p) == NonSlash(bp + path) by {
        Config.NonSlashAppend(bp, p);
        Config.NonSlashAppend(bp, path);
      }
      Config.PrefixedStartsWithBase(bp, p);
      CollapseSlashes(bp + p)
  }

  /** The "anti double-préfixe" promise: with a valid base, `WithBaseSafe`
      is idempotent. */
  lemma WithBaseSafeIdempotent(bp: string, path: string)
    requires Config.ValidBase(bp)
    ensures WithBaseSafe(bp, WithBaseSafe(bp, path)) == WithBaseSafe(bp, path)
  {
    var r := WithBaseSafe(bp, path);
    if path != "" && !IsHttpUrl(path) && bp != "" && !Config.HasBase(bp, path) {
      assert Config.HasBase(bp, r);
      assert !IsHttpUrl(r) by {
        if IsHttpUrl(r) { HttpUrlLead(r); }
      }
    } else if path != "" && !IsHttpUrl(path) && bp == "" {
      assert !IsHttpUrl(r) by {
        if IsHttpUrl(r) { HttpUrlLead(r); }
      }
    }
  }

  /** A non-empty relative path with no `//` and no base yet gets the base
      exactly once and is otherwise unchanged; anchors and queries included. */
  lemma WithBaseSafePrefixesOnce(bp: string, path: string)
    requires Config.ValidBase(bp) && bp != ""
    requires path != "" && !IsHttpUrl(path)
    requires NoDoubleSlash(path)
    requires !Config.HasBase(bp, path)
    ensures WithBaseSafe(bp, path) == bp + EnsureLeadingSlash(path)
  {
    var p := EnsureLeadingSlash(path);
    Config.PrefixedCollapse(bp, p);
    EnsureLeadingSlashNoDouble(path);
    CollapseFixpoint(p);
  }

  /** A run of slashes inside the path is collapsed to one `/` in place. */
  lemma WithBaseSafeCollapseExample()
    ensures WithBaseSafe("/x", "a//b") == "/x/a/b"
  {
    var path := "/a//b";
    assert !IsHttpUrl("a//b") by { if IsHttpUrl("a//b") { HttpUrlLead("a//b"); } }
    assert EnsureLeadingSlash("a//b") == path;
    assert !Config.HasBase("/x", "a//b") by { assert "a//b"[0] == 'a'; }
    assert Config.ValidBase("/x");
    assert WithBaseSafe("/x", "a//b") == CollapseSlashes("/x" + path);
    Config.PrefixedCollapse("/x", path);
    CollapseExample();
    assert "/x" + "/a/b" == "/x/a/b";
  }

  /** Because the prefix test runs before the slash is added, a relative
      path that starts with the base without its slash is prefixed again. */
  lemma WithBaseSafeRawPrefixTest()
    ensures WithBaseSafe("/x", "x/a") == "/x/x/a"
  {
    assert !IsHttpUrl("x/a") by { if IsHttpUrl("x/a") { HttpUrlLead("x/a"); } }
    assert "x/a"[0] == 'x' && !Config.HasBase("/x", "x/a");
    assert EnsureLeadingSlash("x/a") == "/x/a";
    assert NoDoubleSlash("/x/a") by {
      forall i | 0 <= i < 3 ensures !("/x/a"[i] == '/' && "/x/a"[i + 1] == '/') {}
    }
    CollapseFixpoint("/x/a");
    Config.PrefixedCollapse("/x", "/x/a");
    assert "/x" + "/x/a" == "/x/x/a";
  }

  /** `wb`: a falsy value (absent or empty) is returned as it is; anything
      else goes through `WithBaseSafe`. */
  function Wb(bp: string, p: Option<string>): (r: Option<string>)
    ensures !TruthyOpt(p) ==> r == p
    ensures TruthyOpt(p) ==> r == Some(WithBaseSafe(bp, p.value)) && TruthyOpt(r)
  {
    if TruthyOpt(p) then Some(WithBaseSafe(bp, p.value)) else p
  }

  /** The `href` of the previous/next link, `wb(h) || '#'`: `#` exactly when
      the link is absent or empty, the prefixed link otherwise. */
  function NavHref(bp: string, h: Option<string>): (r: string)
    ensures r != ""
    ensures !TruthyOpt(h) ==> r == "#"
    ensures TruthyOpt(h) ==> r == WithBaseSafe(bp, h.value)
    ensures Config.ValidBase(bp) ==> (r == "#" <==> !TruthyOpt(h))
  {
    if TruthyOpt(h) then
      assert Config.ValidBase(bp) ==> WithBaseSafe(bp, h.value) != "#" by {
        if Config.ValidBase(bp) { WithBaseSafeNotHash(bp, h.value); }
      }
      WithBaseSafe(bp, h.value)
    else "#"
  }

  /** With a valid base, a non-empty path never becomes the bare `#`: the
      result is an absolute URL or starts with `/`. */
  lemma WithBaseSafeNotHash(bp: string, path: string)
    requires Config.ValidBase(bp) && path != ""
    ensures WithBaseSafe(bp, path) != "#"
  {
    var r := WithBaseSafe(bp, path);
    if IsHttpUrl(path) {
      HttpUrlLead(path);
    } else if bp == "" {
      assert r[0] == '/';
    } else if Config.HasBase(bp, path) {
      assert path[0] == bp[0] == '/';
    } else {
      assert r[0] == '/';
    }
  }

  const DefaultLogo := "/assets/logo.svg"

  /** The logo source, `wb(logo ?? '/assets/logo.svg')`: only an absent logo
      falls back to the default; an empty one stays empty. */
  function LogoSrc(bp: string, logo: Option<string>): (r: Option<string>)
    ensures logo.None? ==> r == Some(WithBaseSafe(bp, DefaultLogo))
    ensures logo == Some("") ==> r == Some("")
    ensures TruthyOpt(logo) ==> r == Some(WithBaseSafe(bp, logo.value))
  {
    Wb(bp, Some(logo.GetOr(DefaultLogo)))
  }

  /** The point of the fallback: with a valid base that the default logo
      does not already carry, the default logo gets the base exactly once. */
  lemma DefaultLogoPrefixedOnce(bp: string)
    requires Config.ValidBase(bp) && bp != ""
    requires !Config.HasBase(bp, DefaultLogo)
    ensures LogoSrc(bp, None) == Some(bp + DefaultLogo)
  {
    assert !IsHttpUrl(DefaultLogo) by {
      if IsHttpUrl(DefaultLogo) { HttpUrlLead(DefaultLogo); }
    }
    assert NoDoubleSlash(DefaultLogo) by {
      forall i | 0 <= i < |DefaultLogo| - 1
        ensures !(DefaultLogo[i] == '/' && DefaultLogo[i + 1] == '/')
      {
      }
    }
    WithBaseSafePrefixesOnce(bp, DefaultLogo);
  }

  /** One entry of the language switcher. */
  datatype LangOption = LangOption(lc: string, id: string)

  /** `new Map(langOptions.map(o => [o.lc, o.id]))`: inserted in order, so a
      later entry for the same code overwrites an earlier one. */
  function OptionMap(opts: seq<LangOption>): (m: map<string, string>)
    ensures forall k :: k in m ==> exists i :: 0 <= i < |opts| && opts[i].lc == k
    decreases |opts|
  {
    if opts == [] then map[]
    else
      var last := opts[|opts| - 1];
      OptionMap(opts[..|opts| - 1])[last.lc := last.id]
  }

  /** `i` is the last position of `opts` whose code is `key`. */
  predicate LastWith(opts: seq<LangOption>, key: string, i: int) {
    0 <= i < |opts| && opts[i].lc == key && forall j :: i < j < |opts| ==> opts[j].lc != key
  }

  /** The map knows a code exactly when some entry carries it, and then holds
      the identifier of the last such entry. */
  lemma {:induction false} OptionMapLastWins(opts: seq<LangOption>, key: string, i: int)
    requires LastWith(opts, key, i)
    ensures key in OptionMap(opts) && OptionMap(opts)[key] == opts[i].id
    decreases |opts|
  {
    var n := |opts| - 1;
    if i < n {
      var init := opts[..n];
      assert LastWith(init, key, i) by {
        forall j | i < j < |init|
          ensures init[j].lc != key
        {
          assert init[j] == opts[j];
        }
      }
      OptionMapLastWins(init, key, i);
    }
  }

  /** The language switch: the selected code is lower-cased and looked up
      among the options; navigation happens only for a code with a non-empty
      identifier (the last entry for that code wins) and goes to the
      prefixed `/code/id/`. */
  function OnLanguageChange(bp: string, value: string, opts: seq<LangOption>): (target: Option<string>)
    ensures forall i :: LastWith(opts, LowerAscii(value), i) ==>
              (opts[i].id == "" ==> target.None?) &&
              (opts[i].id != "" ==> target == Some(WithBaseSafe(bp, "/" + LowerAscii(value) + "/" + opts[i].id + "/")))
    ensures (forall i :: 0 <= i < |opts| ==> opts[i].lc != LowerAscii(value)) ==> target.None?
  {
    var desired := LowerAscii(value);
    var m := OptionMap(opts);
    if desired in m && m[desired] != "" then
      assert forall i :: LastWith(opts, desired, i) ==> m[desired] == opts[i].id by {
        forall i | LastWith(opts, desired, i)
          ensures m[desired] == opts[i].id
        {
          OptionMapLastWins(opts, desired, i);
        }
      }
      Wb(bp, Some("/" + desired + "/" + m[desired] + "/"))
    else
      assert forall i :: LastWith(opts, desired, i) ==> opts[i].id == "" by {
        forall i | LastWith(opts, desired, i)
          ensures opts[i].id == ""
        {
          OptionMapLastWins(opts, desired, i);
        }
      }
      None
  }

  /** A duplicated code resolves to its later entry. */
  lemma LanguageChangeLaterEntryWins()
    ensures OnLanguageChange("", "FR", [LangOption("fr", "1"), LangOption("fr", "2")]) == Some("/fr/2/")
  {
    var opts := [LangOption("fr", "1"), LangOption("fr", "2")];
    assert LowerAscii("FR") == "fr" by {
      assert LowerChar('F') == 'f' && LowerChar('R') == 'r';
    }
    assert LastWith(opts, "fr", 1);
    OptionMapLastWins(opts, "fr", 1);
    assert "/" + "fr" + "/" + "2" + "/" == "/fr/2/";
    assert !IsHttpUrl("/fr/2/") by { if IsHttpUrl("/fr/2/") { HttpUrlLead("/fr/2/"); } }
    assert WithBaseSafe("", "/fr/2/") == "/fr/2/";
  }
}

=== FILE: paths.dfy ===
/** utils/paths.js: a plain concatenating `withBase` and `ensureAbs`. */
module Paths {
  import opened JsValues
  import opened Text

  /** The prefix `process.env.NEXT_PUBLIC_BASE_PATH ?? ''`: any defined
      value, the empty string included, is used as it is. */
  function Prefix(env: Option<string>): string {
    env.GetOr("")
  }

  /** `withBase`: the prefix followed by `p`, with no normalisation. */
  function NaiveWithBase(env: Option<string>, p: string): (r: string)
    ensures |r| == |Prefix(env)| + |p|
    ensures Prefix(env) <= r && r[|Prefix(env)|..] == p
    ensures env.None? || env == Some("") ==> r == p
  {
    Prefix(env) + p
  }

  /** No de-duplication: with a non-empty prefix, applying `withBase` twice
      prefixes twice, so it is not idempotent. */
  lemma NaiveWithBaseNotIdempotent(env: Option<string>, p: string)
    requires Prefix(env) != ""
    ensures NaiveWithBase(env, NaiveWithBase(env, p)) == Prefix(env) + Prefix(env) + p
    ensures NaiveWithBase(env, NaiveWithBase(env, p)) != NaiveWithBase(env, p)
  {
    assert |NaiveWithBase(env, NaiveWithBase(env, p))| > |NaiveWithBase(env, p)|;
  }

  /** `ensureAbs`: the path with a leading `/` guaranteed. */
  function EnsureAbs(p: string): (r: string)
    ensures StartsWithChar(r, '/')
    ensures StartsWithChar(p, '/') ==> r == p
    ensures !StartsWithChar(p, '/') ==> |r| == |p| + 1 && r[1..] == p
  {
    EnsureLeadingSlash(p)
  }

  lemma EnsureAbsIdempotent(p: string)
    ensures EnsureAbs(EnsureAbs(p)) == EnsureAbs(p)
  {
  }
}

=== FILE: text.dfy ===
/** String helpers shared by the path normalisers and the post selectors:
    collapsing runs of `/`, ASCII case folding, the `http(s)://` test,
    ensuring a leading slash, JavaScript `trim` and `String(n)` for integers. */
module Text {

  /** No two consecutive slashes anywhere in `s`. */
  predicate NoDoubleSlash(s: string) {
    forall i :: 0 <= i < |s| - 1 ==> !(s[i] == '/' && s[i + 1] == '/')
  }

  /** The characters of `s` that are not `/`, in order. */
  function NonSlash(s: string): string
    decreases |s|
  {
    if s == [] then []
    else (if s[0] == '/' then [] else [s[0]]) + NonSlash(s[1..])
  }

  /** The global replacement of `/{2,}` by `/`: every run of slashes becomes
      a single slash and every other character is kept. */
  function CollapseSlashes(s: string): (r: string)
    ensures NoDoubleSlash(r)
    ensures NonSlash(r) == NonSlash(s)
    ensures |r| <= |s|
    ensures |s| > 0 ==> |r| > 0 && r[0] == s[0]
    decreases |s|
  {
    if |s| <= 1 then s
    else if s[0] == '/' && s[1] == '/' then CollapseSlashes(s[1..])
    else [s[0]] + CollapseSlashes(s[1..])
  }

  /** Collapsing changes a string exactly when it holds a `//`. */
  lemma {:induction false} CollapseFixpoint(s: string)
    ensures CollapseSlashes(s) == s <==> NoDoubleSlash(s)
    decreases |s|
  {
    if |s| <= 1 {
    } else if s[0] == '/' && s[1] == '/' {
      assert CollapseSlashes(s) != s by {
        assert NoDoubleSlash(CollapseSlashes(s));
      }
    } else {
      CollapseFixpoint(s[1..]);
      if NoDoubleSlash(s) {
        assert NoDoubleSlash(s[1..]) by {
          forall i | 0 <= i < |s[1..]| - 1
            ensures !(s[1..][i] == '/' && s[1..][i + 1] == '/')
          {
            assert s[1..][i] == s[i + 1] && s[1..][i + 1] == s[i + 2];
          }
        }
      }
    }
  }

  /** Collapsing is idempotent. */
  lemma CollapseIdempotent(s: string)
    ensures CollapseSlashes(CollapseSlashes(s)) == CollapseSlashes(s)
  {
    CollapseFixpoint(CollapseSlashes(s));
  }

  /** A prefix that does not end in `/` is collapsed on its own: the
      boundary with what follows never merges two slash runs. */
  lemma {:induction false} CollapseAppend(a: string, b: string)
    requires a == [] || a[|a| - 1] != '/'
    ensures CollapseSlashes(a + b) == CollapseSlashes(a) + CollapseSlashes(b)
    decreases |a|
  {
    var s := a + b;
    if a == [] {
      assert s == b;
    } else if |a| == 1 {
      if b == [] {
        assert s == a;
      } else {
        assert s[0] == a[0] != '/';
        assert s[1..] == b;
        assert CollapseSlashes(s) == [a[0]] + CollapseSlashes(b);
      }
    } else {
      assert s[0] == a[0] && s[1] == a[1];
      assert s[1..] == a[1..] + b;
      CollapseAppend(a[1..], b);
      if a[0] == '/' && a[1] == '/' {
        assert CollapseSlashes(s) == CollapseSlashes(a[1..] + b);
        assert CollapseSlashes(a) == CollapseSlashes(a[1..]);
      } else {
        assert CollapseSlashes(s) == [a[0]] + CollapseSlashes(a[1..] + b);
        assert CollapseSlashes(a) == [a[0]] + CollapseSlashes(a[1..]);
      }
    }
  }

  /** Dropping one slash of a `//` does not change the collapsed result.
      Repeating this until no `//` is left, then `CollapseFixpoint`,
      determines `CollapseSlashes`: each run of slashes becomes one `/` in
      its original place. */
  lemma {:induction false} CollapseDropsOne(s: string, i: int)
    requires 0 <= i < |s| - 1 && s[i] == '/' && s[i + 1] == '/'
    ensures CollapseSlashes(s) == CollapseSlashes(s[..i] + s[i + 1..])
    decreases i
  {
    var t := s[..i] + s[i + 1..];
    if i == 0 {
      assert t == s[1..];
    } else {
      assert t[0] == s[0];
      assert t[1] == '/' <==> s[1] == '/';
      assert t[1..] == s[1..][..i - 1] + s[1..][i..];
      CollapseDropsOne(s[1..], i - 1);
    }
  }

  /** A double slash in the middle of a path becomes one slash. */
  lemma CollapseExample()
    ensures CollapseSlashes("/a//b") == "/a/b"
  {
    var s := "/a//b";
    assert s[1..] == "a//b" && s[2..] == "//b" && s[3..] == "/b" && s[4..] == "b";
    assert CollapseSlashes(s[3..]) == "/b";
    assert CollapseSlashes(s[2..]) == "/b";
    assert CollapseSlashes(s[1..]) == "a/b";
  }

  /** ASCII upper-case letters map to lower case; everything else is kept.
      A case-insensitive JavaScript regular expression without the `u` flag
      never folds a non-ASCII character onto an ASCII one. */
  function LowerChar(c: char): char {
    if 'A' <= c <= 'Z' then (c as int + 32) as char else c
  }

  function LowerAscii(s: string): (r: string)
    ensures |r| == |s|
    ensures forall i :: 0 <= i < |s| ==> r[i] == LowerChar(s[i])
  {
    seq(|s|, i requires 0 <= i < |s| => LowerChar(s[i]))
  }

  /** The test `/^https?:\/\//i`: an `http://` or `https://` scheme, any case. */
  predicate IsHttpUrl(u: string) {
    || (|u| >= 7 && LowerAscii(u[..7]) == "http://")
    || (|u| >= 8 && LowerAscii(u[..8]) == "https://")
  }

  /** The scheme test character by character: `h`, `t`, `t`, `p`, an
      optional `s`, each in either ASCII case, then `://`. No other
      character matches a scheme letter. */
  lemma HttpUrlScheme(u: string)
    ensures IsHttpUrl(u) <==>
      && |u| >= 7
      && (u[0] == 'h' || u[0] == 'H') && (u[1] == 't' || u[1] == 'T')
      && (u[2] == 't' || u[2] == 'T') && (u[3] == 'p' || u[3] == 'P')
      && ((u[4..7] == "://")
          || (|u| >= 8 && (u[4] == 's' || u[4] == 'S') && u[5..8] == "://"))
  {
    if |u| >= 7 {
      var a := LowerAscii(u[..7]);
      assert a == "http://" <==> (a[0] == 'h' && a[1] == 't' && a[2] == 't' && a[3] == 'p'
        && a[4] == ':' && a[5] == '/' && a[6] == '/');
      if |u| >= 8 {
        var b := LowerAscii(u[..8]);
        assert b == "https://" <==> (b[0] == 'h' && b[1] == 't' && b[2] == 't' && b[3] == 'p'
          && b[4] == 's' && b[5] == ':' && b[6] == '/' && b[7] == '/');
      }
    }
  }

  /** An absolute URL starts with `h` or `H`, so never with `/`, `#` or `?`. */
  lemma HttpUrlLead(u: string)
    requires IsHttpUrl(u)
    ensures |u| > 0 && (u[0] == 'h' || u[0] == 'H')
  {
    if |u| >= 7 && LowerAscii(u[..7]) == "http://" {
      assert LowerChar(u[..7][0]) == 'h';
    } else {
      assert LowerChar(u[..8][0]) == 'h';
    }
  }

  predicate StartsWithChar(s: string, c: char) {
    |s| > 0 && s[0] == c
  }

  /** JavaScript `p.startsWith('/') ? p : '/' + p`. */
  function EnsureLeadingSlash(p: string): (r: string)
    ensures StartsWithChar(r, '/')
    ensures |r| - |p| in {0, 1} && r[|r| - |p|..] == p
    ensures StartsWithChar(p, '/') <==> r == p
  {
    if StartsWithChar(p, '/') then p else "/" + p
  }

  lemma EnsureLeadingSlashIdempotent(p: string)
    ensures EnsureLeadingSlash(EnsureLeadingSlash(p)) == EnsureLeadingSlash(p)
  {
  }

  /** Adding a leading slash to a string without `//` that does not already
      start with one creates no `//`. */
  lemma EnsureLeadingSlashNoDouble(p: string)
    requires NoDoubleSlash(p)
    ensures NoDoubleSlash(EnsureLeadingSlash(p))
  {
    if !StartsWithChar(p, '/') {
      var r := "/" + p;
      forall i | 0 <= i < |r| - 1
        ensures !(r[i] == '/' && r[i + 1] == '/')
      {
        if i > 0 {
          assert r[i] == p[i - 1] && r[i + 1] == p[i];
        }
      }
    }
  }

  /** White space and line terminators as JavaScript `String.prototype.trim`
      strips them. */
  predicate IsJsSpace(c: char) {
    || c == '\t' || c == '\n' || c == '\U{000B}' || c == '\U{000C}' || c == '\r'
    || c == ' ' || c == '\U{00A0}' || c == '\U{1680}'
    || ('\U{2000}' <= c <= '\U{200A}')
    || c == '\U{2028}' || c == '\U{2029}' || c == '\U{202F}' || c == '\U{205F}'
    || c == '\U{3000}' || c == '\U{FEFF}'
  }

  function TrimStart(s: string): (r: string)
    ensures |r| <= |s| && r == s[|s| - |r|..]
    ensures r == [] || !IsJsSpace(r[0])
    ensures forall i :: 0 <= i < |s| - |r| ==> IsJsSpace(s[i])
    decreases |s|
  {
    if s == [] || !IsJsSpace(s[0]) then s else TrimStart(s[1..])
  }

  function TrimEnd(s: string): (r: string)
    ensures |r| <= |s| && r == s[..|r|]
    ensures r == [] || !IsJsSpace(r[|r| - 1])
    ensures forall i :: |r| <= i < |s| ==> IsJsSpace(s[i])
    decreases |s|
  {
    if s == [] || !IsJsSpace(s[|s| - 1]) then s else TrimEnd(s[..|s| - 1])
  }

  /** `r` is `s[i..j]` and everything outside that slice is white space. */
  predicate SliceOf(s: string, r: string, i: int, j: int) {
    && 0 <= i <= j <= |s| && r == s[i..j]
    && (forall k :: 0 <= k < i ==> IsJsSpace(s[k]))
    && (forall k :: j <= k < |s| ==> IsJsSpace(s[k]))
  }

  /** Trimming the end and then the start keeps a slice of `s` with only
      white space outside it. */
  lemma TrimEndStartSlice(s: string)
    ensures SliceOf(s, TrimStart(TrimEnd(s)), |TrimEnd(s)| - |TrimStart(TrimEnd(s))|, |TrimEnd(s)|)
    ensures exists i, j :: SliceOf(s, TrimStart(TrimEnd(s)), i, j)
  {
    var e := TrimEnd(s);
    var r := TrimStart(e);
    var i := |e| - |r|;
    assert r == s[i..|e|] by {
      assert e == s[..|e|];
      assert r == e[i..];
    }
    forall k | 0 <= k < i
      ensures IsJsSpace(s[k])
    {
      assert s[k] == e[k];
    }
    assert SliceOf(s, r, i, |e|);
  }

  /** Trimming the end and then the start leaves no white space at either
      end. */
  lemma TrimEndStartEnds(s: string)
    ensures var r := TrimStart(TrimEnd(s)); r == [] || (!IsJsSpace(r[0]) && !IsJsSpace(r[|r| - 1]))
  {
    var e := TrimEnd(s);
    var r := TrimStart(e);
    assert r != [] ==> r[|r| - 1] == e[|e| - 1];
  }

  /** JavaScript `trim`: the slice of `s` between leading and trailing white
      space, which is all that is removed. */
  function Trim(s: string): (r: string)
    ensures r == [] || (!IsJsSpace(r[0]) && !IsJsSpace(r[|r| - 1]))
    ensures exists i, j :: SliceOf(s, r, i, j)
  {
    TrimEndStartSlice(s);
    TrimEndStartEnds(s);
    TrimStart(TrimEnd(s))
  }

  /** A string that neither starts nor ends with white space is its own trim. */
  lemma TrimUnchanged(s: string)
    requires s == [] || (!IsJsSpace(s[0]) && !IsJsSpace(s[|s| - 1]))
    ensures Trim(s) == s
  {
  }

  function DigitChar(d: nat): char
    requires d < 10
  {
    "0123456789"[d]
  }

  /** The value of a string of decimal digits. */
  function DecimalValue(s: string): nat
    decreases |s|
  {
    if s == [] then 0
    else
      var c := s[|s| - 1];
      DecimalValue(s[..|s| - 1]) * 10 + (if '0' <= c <= '9' then c as int - '0' as int else 0)
  }

  /** JavaScript `String(n)` for a natural number: its shortest decimal
      representation. */
  function NatToDecimal(n: nat): (r: string)
    ensures |r| > 0
    ensures forall i :: 0 <= i < |r| ==> '0' <= r[i] <= '9'
    ensures |r| > 1 ==> r[0] != '0'
    decreases n
  {
    if n < 10 then [DigitChar(n)] else NatToDecimal(n / 10) + [DigitChar(n % 10)]
  }

  /** Printing a natural number and reading it back gives the number. */
  lemma {:induction false} NatToDecimalRoundTrip(n: nat)
    ensures DecimalValue(NatToDecimal(n)) == n
    decreases n
  {
    var r := NatToDecimal(n);
    if n < 10 {
      assert r[..0] == [];
    } else {
      NatToDecimalRoundTrip(n / 10);
      assert r[..|r| - 1] == NatToDecimal(n / 10);
    }
  }

  lemma DigitNotSpace(c: char)
    requires '0' <= c <= '9'
    ensures !IsJsSpace(c)
  {
  }

  /** JavaScript `String(n)` for an integer. */
  function IntToDecimal(n: int): (r: string)
    ensures |r| > 0
    ensures !IsJsSpace(r[0]) && !IsJsSpace(r[|r| - 1])
    ensures n >= 0 ==> r == NatToDecimal(n)
    ensures n < 0 ==> r == "-" + NatToDecimal(-n)
  {
    var d := NatToDecimal(if n < 0 then -n else n);
    DigitNotSpace(d[0]);
    DigitNotSpace(d[|d| - 1]);
    assert !IsJsSpace('-');
    if n < 0 then
      var r := "-" + d;
      assert r[1..] == d;
      r
    else d
  }
}

=== FILE: wp.dfy ===
/** The content-API layer of lib/wp.js: the bounded retry loop
    `fetchWithTimeout`, the status handling of `fetchPost` and `fetchAuthor`,
    and the `postTitle` and `postSlug` selectors.

    The network is an oracle: `oracle[k]` is what attempt `k` yields, either
    a completed response (any HTTP status) or a transport failure (a
    connection error or the per-attempt timeout firing). */
module Wp {
  import opened JsValues
  import opened Text

  /** The retry count used when none is configured. */
  const DefaultRetries := 2
  const BackoffStepMs := 500

  /** What one attempt yields. */
  datatype Outcome<B> = Completed(status: int, body: B) | TransportError(error: string)

  /** What `fetchWithTimeout` settles with: a response, a rethrown transport
      error, or `undefined` when the loop body never runs. */
  datatype Fetched<B> = Response(status: int, body: B) | Thrown(error: string) | Undefined

  /** Timer and back-off events: arming the abort timer of an attempt,
      clearing it, and sleeping before the next attempt. */
  datatype Event = Arm(attempt: nat) | Clear(attempt: nat) | Sleep(ms: nat)

  /** The outcome of the loop, the number of attempts made and its events. */
  datatype Run<B> = Run(result: Fetched<B>, attempts: nat, trace: seq<Event>)

  /** The wait after a transport failure of attempt `attempt` (0-based). */
  function Backoff(attempt: nat): nat {
    BackoffStepMs * (attempt + 1)
  }

  /** The events of attempts `k` to `n - 1`, all but the last followed by
      their back-off. */
  function Schedule(k: nat, n: nat): seq<Event>
    decreases n - k
  {
    if k >= n then []
    else if k == n - 1 then [Arm(k), Clear(k)]
    else [Arm(k), Clear(k), Sleep(Backoff(k))] + Schedule(k + 1, n)
  }

  /** Attempts `k` to `j - 1` all failed in transport. */
  predicate FailsFrom<B>(oracle: seq<Outcome<B>>, k: nat, j: int)
    requires j <= |oracle|
  {
    forall m :: k <= m < j ==> oracle[m].TransportError?
  }

  /** The retry policy from attempt `k` on, as a recursive reference for the
      loop of `fetchWithTimeout`. */
  function Policy<B>(oracle: seq<Outcome<B>>, retries: int, k: nat): Run<B>
    requires retries < |oracle|
    decreases retries - k
  {
    if k > retries then Run(Undefined, k, [])
    else match oracle[k]
      case Completed(s, b) => Run(Response(s, b), k + 1, [Arm(k), Clear(k)])
      case TransportError(e) =>
        if k == retries then Run(Thrown(e), k + 1, [Arm(k), Clear(k)])
        else
          var rest := Policy(oracle, retries, k + 1);
          Run(rest.result, rest.attempts, [Arm(k), Clear(k), Sleep(Backoff(k))] + rest.trace)
  }

  /** What the policy does from attempt `k` on. It stops at the first
      completed attempt, whatever its status; a transport failure is retried
      unless it happened on attempt `retries`, where it is rethrown; with
      `retries < 0` nothing is attempted. The attempts made are bounded by
      `retries + 1`, and the events are those of `Schedule`. */
  lemma {:induction false} PolicyShape<B>(oracle: seq<Outcome<B>>, retries: int, k: nat)
    requires retries < |oracle|
    ensures var run := Policy(oracle, retries, k);
      && (retries < k ==> run == Run(Undefined, k, []))
      && (k <= retries ==> k < run.attempts <= retries + 1)
      && (k <= retries ==> FailsFrom(oracle, k, run.attempts - 1))
      && (k <= retries && oracle[run.attempts - 1].Completed? ==>
            run.result == Response(oracle[run.attempts - 1].status, oracle[run.attempts - 1].body))
      && (k <= retries && oracle[run.attempts - 1].TransportError? ==>
            run.attempts == retries + 1 && run.result == Thrown(oracle[retries].error))
      && run.trace == Schedule(k, run.attempts)
    decreases retries - k
  {
    if k < retries && oracle[k].TransportError? {
      PolicyShape(oracle, retries, k + 1);
    }
  }

  /** `fetchWithTimeout`: the `for` loop over attempts, proved to follow the
      policy exactly. */
  method FetchWithTimeout<B>(oracle: seq<Outcome<B>>, retries: int) returns (run: Run<B>)
    requires retries < |oracle|
    ensures run == Policy(oracle, retries, 0)
  {
    var trace: seq<Event> := [];
    var attempt: nat := 0;
    while attempt <= retries
      invariant attempt == 0 || attempt <= retries
      invariant Policy(oracle, retries, 0) == Prepend(trace, Policy(oracle, retries, attempt))
      decreases retries - attempt
    {
      var before := trace;
      trace := trace + [Arm(attempt)];
      match oracle[attempt] {
        case Completed(s, b) =>
          trace := trace + [Clear(attempt)];
          PolicyStopStep(oracle, retries, attempt, before);
          return Run(Response(s, b), attempt + 1, trace);
        case TransportError(e) =>
          trace := trace + [Clear(attempt)];
          if attempt == retries {
            PolicyStopStep(oracle, retries, attempt, before);
            return Run(Thrown(e), attempt + 1, trace);
          }
          trace := trace + [Sleep(Backoff(attempt))];
          PolicyRetryStep(oracle, retries, attempt, before);
      }
      attempt := attempt + 1;
    }
    run := Run(Undefined, 0, trace);
  }

  /** `run` with `prefix` put before its events. */
  function Prepend<B>(prefix: seq<Event>, run: Run<B>): Run<B> {
    Run(run.result, run.attempts, prefix + run.trace)
  }

  /** A completed attempt, or a transport failure on the last one, ends the
      policy with that attempt's timer armed and cleared. */
  lemma PolicyStopStep<B>(oracle: seq<Outcome<B>>, retries: int, k: nat, prefix: seq<Event>)
    requires retries < |oracle| && k <= retries
    requires oracle[k].Completed? || k == retries
    ensures oracle[k].Completed? ==>
              Prepend(prefix, Policy(oracle, retries, k))
              == Run(Response(oracle[k].status, oracle[k].body), k + 1, prefix + [Arm(k)] + [Clear(k)])
    ensures oracle[k].TransportError? ==>
              Prepend(prefix, Policy(oracle, retries, k))
              == Run(Thrown(oracle[k].error), k + 1, prefix + [Arm(k)] + [Clear(k)])
  {
    assert prefix + [Arm(k), Clear(k)] == prefix + [Arm(k)] + [Clear(k)];
  }

  /** A transport failure before the last attempt contributes its timer
      events and back-off, and the policy continues with the next attempt. */
  lemma PolicyRetryStep<B>(oracle: seq<Outcome<B>>, retries: int, k: nat, prefix: seq<Event>)
    requires retries < |oracle| && k < retries && oracle[k].TransportError?
    ensures Prepend(prefix, Policy(oracle, retries, k))
         == Prepend(prefix + [Arm(k)] + [Clear(k)] + [Sleep(Backoff(k))], Policy(oracle, retries, k + 1))
  {
    var rest := Policy(oracle, retries, k + 1);
    assert prefix + ([Arm(k), Clear(k), Sleep(Backoff(k))] + rest.trace)
        == prefix + [Arm(k)] + [Clear(k)] + [Sleep(Backoff(k))] + rest.trace;
  }

  /** Attempt `j` is the first to complete, within the allowed attempts. */
  predicate CompletesAt<B>(oracle: seq<Outcome<B>>, retries: int, j: int)
    requires retries < |oracle|
  {
    0 <= j <= retries && oracle[j].Completed? && FailsFrom(oracle, 0, j)
  }

  /** Every allowed attempt fails in transport. */
  predicate AllFail<B>(oracle: seq<Outcome<B>>, retries: int)
    requires retries < |oracle|
  {
    retries >= 0 && FailsFrom(oracle, 0, retries + 1)
  }

  /** The first completed attempt is returned as it is and ends the loop. */
  lemma PolicyReturnsFirstCompleted<B>(oracle: seq<Outcome<B>>, retries: int, j: int)
    requires retries < |oracle|
    requires CompletesAt(oracle, retries, j)
    ensures Policy(oracle, retries, 0).attempts == j + 1
    ensures Policy(oracle, retries, 0).result == Response(oracle[j].status, oracle[j].body)
  {
    PolicyShape(oracle, retries, 0);
  }

  /** When every attempt fails, exactly `retries + 1` are made, the last
      error is rethrown and the back-off adds up to
      `500 * retries * (retries + 1) / 2` ms. */
  lemma PolicyAllFail<B>(oracle: seq<Outcome<B>>, retries: int)
    requires retries < |oracle|
    requires AllFail(oracle, retries)
    ensures Policy(oracle, retries, 0).attempts == retries + 1
    ensures Policy(oracle, retries, 0).result == Thrown(oracle[retries].error)
    ensures 2 * TotalSleep(Policy(oracle, retries, 0).trace) == BackoffStepMs * (retries * (retries + 1))
  {
    var run := Policy(oracle, retries, 0);
    PolicyShape(oracle, retries, 0);
    assert oracle[run.attempts - 1].TransportError?;
    assert run.attempts == retries + 1;
    ScheduleTotal(0, retries + 1);
    assert retries + 1 - 1 == retries && 0 * (0 + 1) == 0;
  }

  /** With the default of two retries, a request whose every attempt fails
      is tried three times and waits 500 ms and then 1000 ms. */
  lemma DefaultRetriesAllFail<B>(oracle: seq<Outcome<B>>)
    requires DefaultRetries < |oracle|
    requires AllFail(oracle, DefaultRetries)
    ensures Policy(oracle, DefaultRetries, 0).attempts == 3
    ensures Sleeps(Policy(oracle, DefaultRetries, 0).trace) == [500, 1000]
    ensures Policy(oracle, DefaultRetries, 0).result == Thrown(oracle[2].error)
  {
    PolicyAllFail(oracle, DefaultRetries);
    PolicyShape(oracle, DefaultRetries, 0);
    ScheduleSleeps(0, 3);
  }

  /** The ms of the sleeps of a trace, in order. */
  function Sleeps(t: seq<Event>): seq<nat>
    decreases |t|
  {
    if t == [] then []
    else (if t[0].Sleep? then [t[0].ms] else []) + Sleeps(t[1..])
  }

  /** The total back-off of a trace. */
  function TotalSleep(t: seq<Event>): nat
    decreases |t|
  {
    if t == [] then 0
    else (if t[0].Sleep? then t[0].ms else 0) + TotalSleep(t[1..])
  }

  /** Every armed timer is cleared by the very next event, on the success
      path and on the failure path alike. */
  predicate TimersCleared(t: seq<Event>) {
    forall i :: 0 <= i < |t| && t[i].Arm? ==> i + 1 < |t| && t[i + 1] == Clear(t[i].attempt)
  }

  lemma {:induction false} ScheduleTimersCleared(k: nat, n: nat)
    ensures TimersCleared(Schedule(k, n))
    decreases n - k
  {
    if k < n - 1 {
      ScheduleTimersCleared(k + 1, n);
      var t := Schedule(k, n);
      var rest := Schedule(k + 1, n);
      forall i | 0 <= i < |t| && t[i].Arm?
        ensures i + 1 < |t| && t[i + 1] == Clear(t[i].attempt)
      {
        if i >= 3 {
          assert t[i] == rest[i - 3];
        }
      }
    }
  }

  /** Each attempt's timer is cleared, on the success path and on the
      failure path. */
  lemma PolicyTimersCleared<B>(oracle: seq<Outcome<B>>, retries: int)
    requires retries < |oracle|
    ensures TimersCleared(Policy(oracle, retries, 0).trace)
  {
    PolicyShape(oracle, retries, 0);
    ScheduleTimersCleared(0, Policy(oracle, retries, 0).attempts);
  }

  /** The sleeps of attempts `k` to `n - 1` are `Backoff(k)`, …,
      `Backoff(n - 2)`: one fewer than the attempts. */
  lemma {:induction false} ScheduleSleeps(k: nat, n: nat)
    requires k < n
    ensures |Sleeps(Schedule(k, n))| == n - 1 - k
    ensures forall i :: 0 <= i < n - 1 - k ==> Sleeps(Schedule(k, n))[i] == Backoff(k + i)
    decreases n - k
  {
    var t := Schedule(k, n);
    if k == n - 1 {
      assert Sleeps(t) == Sleeps(t[1..]) == Sleeps(t[2..]);
      assert t[2..] == [];
    } else {
      var rest := Schedule(k + 1, n);
      ScheduleSleeps(k + 1, n);
      assert t[1..] == [Clear(k), Sleep(Backoff(k))] + rest;
      assert t[1..][1..] == [Sleep(Backoff(k))] + rest;
      assert t[1..][1..][1..] == rest;
      assert Sleeps(t) == Sleeps(t[1..]) == Sleeps(t[1..][1..]) == [Backoff(k)] + Sleeps(rest);
    }
  }

  /** The back-off delays grow strictly: `500 * (k + 1)` ms after the failure
      of attempt `k`. */
  lemma PolicyDelaysIncrease<B>(oracle: seq<Outcome<B>>, retries: int)
    requires retries < |oracle|
    ensures var s := Sleeps(Policy(oracle, retries, 0).trace);
            && |s| == (if retries < 0 then 0 else Policy(oracle, retries, 0).attempts - 1)
            && (forall i :: 0 <= i < |s| ==> s[i] == BackoffStepMs * (i + 1))
            && (forall i, j :: 0 <= i < j < |s| ==> s[i] < s[j])
  {
    var run := Policy(oracle, retries, 0);
    PolicyShape(oracle, retries, 0);
    if retries >= 0 {
      ScheduleSleeps(0, run.attempts);
    }
  }

  lemma {:induction false} ScheduleTotal(k: nat, n: nat)
    requires k < n
    ensures TotalSleep(Schedule(k, n)) == 250 * ((n - 1) * n - k * (k + 1))
    decreases n - k
  {
    var t := Schedule(k, n);
    if k == n - 1 {
      assert t[1..][1..] == [];
    } else {
      var rest := Schedule(k + 1, n);
      ScheduleTotal(k + 1, n);
      assert t[1..] == [Clear(k), Sleep(Backoff(k))] + rest;
      assert t[1..][1..] == [Sleep(Backoff(k))] + rest;
      assert t[1..][1..][1..] == rest;
      assert TotalSleep(t) == TotalSleep(t[1..]) == TotalSleep(t[1..][1..]) == Backoff(k) + TotalSleep(rest);
      assert (k + 1) * (k + 2) == k * (k + 1) + 2 * (k + 1);
    }
  }

  /** `r.ok`: a 2xx status. */
  predicate IsOk(status: int) {
    200 <= status <= 299
  }

  /** Why `fetchPost` or `fetchAuthor` throws: a non-2xx status (`fetchPost`
      only), a rethrown transport error, or reading `.ok` of `undefined`. */
  datatype FetchError = HttpStatus(id: string, status: int) | Transport(error: string) | NoResponse

  /** `fetchPost`: the body of a 2xx response; a non-2xx response throws,
      and so does an exhausted retry. */
  function FetchPost<B>(oracle: seq<Outcome<B>>, retries: int, id: string): (r: Result<B, FetchError>)
    requires retries < |oracle|
    ensures forall j :: CompletesAt(oracle, retries, j) && IsOk(oracle[j].status) ==> r == Success(oracle[j].body)
    ensures forall j :: CompletesAt(oracle, retries, j) && !IsOk(oracle[j].status) ==>
              r == Failure(HttpStatus(id, oracle[j].status))
    ensures AllFail(oracle, retries) ==> r == Failure(Transport(oracle[retries].error))
    ensures retries < 0 ==> r == Failure(NoResponse)
  {
    var run := Policy(oracle, retries, 0);
    PolicyShape(oracle, retries, 0);
    assert forall j :: CompletesAt(oracle, retries, j) ==> run.attempts == j + 1 by {
      forall j | CompletesAt(oracle, retries, j)
        ensures run.attempts == j + 1
      {
        PolicyReturnsFirstCompleted(oracle, retries, j);
      }
    }
    assert AllFail(oracle, retries) ==> run.result == Thrown(oracle[retries].error) by {
      if AllFail(oracle, retries) {
        PolicyAllFail(oracle, retries);
      }
    }
    match run.result
    case Response(s, b) => if IsOk(s) then Success(b) else Failure(HttpStatus(id, s))
    case Thrown(e) => Failure(Transport(e))
    case Undefined => Failure(NoResponse)
  }

  /** `fetchAuthor`: the body of a 2xx response, `null` for any other
      status; transport errors still propagate. */
  function FetchAuthor<B>(oracle: seq<Outcome<B>>, retries: int): (r: Result<Option<B>, FetchError>)
    requires retries < |oracle|
    ensures forall j :: CompletesAt(oracle, retries, j) && IsOk(oracle[j].status) ==> r == Success(Some(oracle[j].body))
    ensures forall j :: CompletesAt(oracle, retries, j) && !IsOk(oracle[j].status) ==> r == Success(None)
    ensures AllFail(oracle, retries) ==> r == Failure(Transport(oracle[retries].error))
    ensures retries < 0 ==> r == Failure(NoResponse)
  {
    var run := Policy(oracle, retries, 0);
    PolicyShape(oracle, retries, 0);
    assert forall j :: CompletesAt(oracle, retries, j) ==> run.attempts == j + 1 by {
      forall j | CompletesAt(oracle, retries, j)
        ensures run.attempts == j + 1
      {
        PolicyReturnsFirstCompleted(oracle, retries, j);
      }
    }
    assert AllFail(oracle, retries) ==> run.result == Thrown(oracle[retries].error) by {
      if AllFail(oracle, retries) {
        PolicyAllFail(oracle, retries);
      }
    }
    match run.result
    case Response(s, b) => if IsOk(s) then Success(Some(b)) else Success(None)
    case Thrown(e) => Failure(Transport(e))
    case Undefined => Failure(NoResponse)
  }

  /** The fields of a post that the selectors read. */
  datatype Title = Title(rendered: Option<string>, raw: Option<string>)
  datatype PostId = NumId(n: int) | StrId(s: string)
  datatype Post = Post(title: Option<Title>, slug: Option<string>, id: Option<PostId>)

  const Untitled := "Sans titre"

  /** `postTitle`: the rendered title if non-empty, else the raw title if
      non-empty, else `Sans titre`; never empty. */
  function PostTitle(post: Option<Post>): (r: string)
    ensures r != ""
    ensures post.None? || post.value.title.None? ==> r == Untitled
    ensures post.Some? && post.value.title.Some? && TruthyOpt(post.value.title.value.rendered)
            ==> r == post.value.title.value.rendered.value
    ensures (post.Some? && post.value.title.Some? && !TruthyOpt(post.value.title.value.rendered)
             && TruthyOpt(post.value.title.value.raw)) ==> r == post.value.title.value.raw.value
    ensures (post.Some? && post.value.title.Some? && !TruthyOpt(post.value.title.value.rendered)
             && !TruthyOpt(post.value.title.value.raw)) ==> r == Untitled
  {
    match post
    case None => Untitled
    case Some(p) =>
      match p.title
      case None => Untitled
      case Some(t) => OrElse(t.rendered, OrElse(t.raw, Untitled))
  }

  /** `post?.id || ''`: the id when truthy (a non-zero number or a non-empty
      string), converted by `String`. */
  function IdText(id: Option<PostId>): (r: string)
    ensures r == "" <==> id in {None, Some(NumId(0)), Some(StrId(""))}
    ensures id.Some? && id.value.StrId? ==> r == id.value.s
    ensures id.Some? && id.value.NumId? && id.value.n > 0 ==> r == NatToDecimal(id.value.n)
    ensures id.Some? && id.value.NumId? && id.value.n < 0 ==> r == "-" + NatToDecimal(-id.value.n)
  {
    match id
    case None => ""
    case Some(NumId(n)) => if n == 0 then "" else IntToDecimal(n)
    case Some(StrId(s)) => s
  }

  /** `postSlug`: the slug when non-empty, otherwise the trimmed text of the
      id, which is empty for a missing post or a falsy id. */
  function PostSlug(post: Option<Post>): (r: string)
    ensures post.Some? && TruthyOpt(post.value.slug) ==> r == post.value.slug.value
    ensures post.None? ==> r == ""
    ensures post.Some? && !TruthyOpt(post.value.slug) ==>
              && (r == [] || (!IsJsSpace(r[0]) && !IsJsSpace(r[|r| - 1])))
              && (exists i, j :: SliceOf(IdText(post.value.id), r, i, j))
    ensures post.Some? && !TruthyOpt(post.value.slug) && post.value.id in {None, Some(NumId(0)), Some(StrId(""))}
            ==> r == ""
    ensures (post.Some? && !TruthyOpt(post.value.slug) && post.value.id.Some? && post.value.id.value.NumId?
             && post.value.id.value.n > 0) ==> r == NatToDecimal(post.value.id.value.n)
    ensures (post.Some? && !TruthyOpt(post.value.slug) && post.value.id.Some? && post.value.id.value.NumId?
             && post.value.id.value.n < 0) ==> r == "-" + NatToDecimal(-post.value.id.value.n)
  {
    if post.Some? && TruthyOpt(post.value.slug) then post.value.slug.value
    else if post.None? then ""
    else
      var text := IdText(post.value.id);
      assert post.value.id.Some? && post.value.id.value.NumId? && post.value.id.value.n != 0 ==> Trim(text) == text by {
        if post.value.id.Some? && post.value.id.value.NumId? && post.value.id.value.n != 0 {
          TrimUnchanged(text);
        }
      }
      Trim(text)
  }
}
